=== FILE: README.md ===
# Trust lookup — a Dafny model

"Check Uy Tín" is a small web page for checking whether a phone number or a
bank account can be trusted before trading with it. Three scripts make up its
core:

- `data.js` holds the trust database: four seed records, lookups by id, level,
  phone and bank, `addRecord` with its defaults, a statistics block, a
  multi-field `search`, and `exportData` / `importData` for backups.
- `trust-app.js` is the page controller. It picks the loaded database or a
  built-in fallback. `performCheck` trims the query and rejects a blank one.
  `searchInDatabase` returns the first record that matches. The result card
  applies the level and score defaults, the per-level card style, and the
  phone display.
- `trust.js` is a stand-alone, simpler checker: a three-entry table searched
  by exact phone or account, behind an input guard, with its own card styles.

The model is functional. A store is a value, and every operation that mutates
the JavaScript object returns the new store. JavaScript's falsiness is written
out:

- A property that may be missing is an `Option`. `Some("")` is present but
  falsy.
- A missing array behaves as the empty sequence.
- `toLowerCase` and `trim` are modelled code point by code point, with the
  ECMAScript white-space set. Lower-casing covers the Latin letters the data
  uses.

Modules:

| file | module | models |
|---|---|---|
| `options.dfy` | `Options` | `Option`, for `undefined` |
| `text.dfy` | `Text` | `trim`, `toLowerCase`, `includes`, `replace(/\D/g, '')`, `String(n)`, `split('T')[0]` |
| `seqs.dfy` | `Seqs` | `Array.prototype.filter` and `find` |
| `records.dfy` | `Records` | trust records, statistics, the store, card styles, truthiness |
| `data.dfy` | `TrustDatabase` | `data.js` |
| `trust_app.dfy` | `TrustApp` | `trust-app.js` |
| `trust.dfy` | `TrustLite` | `trust.js` |

## Model

| member | source | states |
|---|---|---|
| Text.Trim | data.js:177 | the result is a slice of the input, everything cut off is ECMAScript white space, neither end of the result is white space, and the result is empty exactly when the input is blank |
| Text.TrimIdempotent | trust-app.js:74 | trimming a trimmed query changes nothing |
| Text.Lower | data.js:177 | `toLowerCase` keeps the length, turns ASCII capitals into their small letters, keeps every other character below U+00C0, and gives characters that lower-casing again leaves alone |
| Text.LowerIdempotent | data.js:177 | lower-casing a lower-cased query changes nothing |
| Text.LowerKeepsBlankness | data.js:177 | lower-casing never turns a blank query into a non-blank one or back |
| Text.LowerKeepsDigit | trust-app.js:161 | a digit occurs in a lower-cased name exactly when it occurs in the name |
| Text.Includes | data.js:182 | `s.includes(t)` holds exactly when `t` occurs at some position of `s` |
| Text.IncludesEmpty | data.js:182 | the empty term occurs in every string |
| Text.IncludesSelf | trust-app.js:139 | every string includes itself |
| Text.NotIncludesByCount | data.js:182 | a term with more copies of a character than the text has does not occur in it |
| Text.IncludesCount | data.js:182 | a text has at least as many copies of each character as any term it includes |
| Text.StripNonDigits | trust-app.js:209 | the result is all digits and no longer than the input, and a digit string is left unchanged |
| Text.StripNonDigitsMembers | trust-app.js:209 | a character survives exactly when it is a digit of the input |
| Text.StripNonDigitsAppend | trust-app.js:209 | stripping a concatenation strips each part |
| Text.NatToDecimal | data.js:153 | the decimal rendering of the clock is non-empty, all digits, with no leading zero |
| Text.DecimalRoundTrip | data.js:153 | reading the decimal rendering back gives the number |
| Text.BeforeFirstT | data.js:159 | the date part is a prefix of the ISO time stamp, has no `T`, and stops only at a `T` or at the end |
| Seqs.Filter | data.js:133 | `filter` returns a subsequence holding exactly the elements that satisfy the predicate |
| Seqs.FilterMultiset | data.js:133 | `filter` keeps every satisfying element as often as it occurs, and nothing else |
| Seqs.FilterAppend | data.js:162 | filtering a list that was extended at the end filters both parts |
| Seqs.FilterAll | data.js:133 | a predicate that every element satisfies filters nothing out |
| Seqs.FindIndex | data.js:129 | the index is the first match, and there is none exactly when nothing matches |
| Seqs.Find | data.js:129 | `find` is `undefined` exactly when nothing matches, and otherwise the element at the first matching position |
| Seqs.FirstMatchUnique | data.js:129 | there is only one first match |
| TrustDatabase.Loaded | data.js:233 | after the load-time `updateStats` the store holds the seed records and is consistent: the record count equals the number of records |
| TrustDatabase.GetRecordById | data.js:128-130 | nothing exactly when no record has the id; otherwise the first record with that id; an absent (`undefined`) id finds the first record without one |
| TrustDatabase.GetRecordsByLevel | data.js:132-134 | a subsequence of the store holding exactly the records at that level, each as many times as it is stored |
| TrustDatabase.GetRecordsByPhone | data.js:136-141 | a subsequence holding exactly the records whose phone equals the query or whose `phones` list contains it, by equality and not substring, each as many times as it is stored; an absent phone keeps the records without a phone |
| TrustDatabase.GetRecordsByBank | data.js:143-148 | a subsequence holding exactly the records whose bank equals the query or whose `banks` list contains it, each as many times as it is stored; an absent bank keeps the records without a bank |
| TrustDatabase.UpdateStats | data.js:170-173 | the count becomes the number of records, the stamp becomes the time given, and the records and version are untouched |
| TrustDatabase.GeneratedId | data.js:153 | a generated id starts with `REC_` and is longer than that prefix |
| TrustDatabase.AddRecord | data.js:150-168 | one record is appended and earlier ones are unchanged; the count is consistent; the id is the given one when truthy, else generated; a falsy score becomes 50 and a falsy level `neutral`; the record's date is the date part of the clock; every other field is kept |
| TrustDatabase.AddThenGetById | data.js:150-168 | after an add, looking up a fresh id finds the new record, and an id already in use keeps finding the earlier record |
| TrustDatabase.FindAppend | data.js:162 | the first match in an extended list is the old first match, else the new element if it matches |
| TrustDatabase.AddThenGetByLevel | data.js:150-168 | after an add, the level filter is the old one, extended by the new record exactly when it has that level |
| TrustDatabase.SearchTerm | data.js:177 | the term is no longer than the query and is empty exactly when the query is blank |
| TrustDatabase.SearchTermIdempotent | trust-app.js:125 | a search term is already lower case and is its own search term |
| TrustDatabase.Search | data.js:176-210 | a subsequence of the store holding exactly the records that match the lower-cased, trimmed query, each as many times as it is stored |
| TrustDatabase.LowerAll | data.js:196-206 | lower-casing a list keeps its length and lower-cases each element |
| TrustDatabase.AnyIncludesAppend | data.js:180-209 | a term occurs in a joined list of texts exactly when it occurs in one of the parts |
| TrustDatabase.AnyIncludesPresent | data.js:182 | the `s && s.includes(t)` guard is a search over the present, non-empty value |
| TrustDatabase.AnyIncludesNonEmpty | data.js:185-186 | the `some(x => x && x.includes(t))` test is a search over the non-empty elements |
| TrustDatabase.SearchMatchIffHaystack | data.js:180-209 | a record matches exactly when the term occurs in one of its searchable texts: phones and accounts as stored; name, aliases, bank and location lower-cased; empty values skipped |
| TrustDatabase.SearchCaseInsensitive | data.js:177 | searching for the lower-cased query returns the same records |
| TrustDatabase.ExportData | data.js:213-219 | the payload carries the statistics and the records as an array |
| TrustDatabase.ImportData | data.js:222-229 | succeeds exactly when the payload's `records` is an array; on success the records are replaced, the count is consistent and the stamp is the time given; on failure nothing changes |
| TrustDatabase.ImportExportRoundTrip | data.js:213-229 | importing what was just exported succeeds and keeps the records, and a consistent store keeps its count |
| TrustApp.InitDatabase | trust-app.js:16-29 | the records are always present: the global database's when it is loaded, else the two fallback records |
| TrustApp.LoadedDatabaseIsSeed | trust-app.js:16 | with the trust database loaded, the app searches exactly the seed records, in storage order, whatever the load time |
| TrustApp.SearchInDatabase | trust-app.js:119-169 | nothing when the database or its records are missing; otherwise nothing exactly when no record matches the term, else the first record in storage order that matches |
| TrustApp.ExactPhoneSubsumed | trust-app.js:133-142 | for a non-empty term the exact-phone test is implied by the partial-phone test |
| TrustApp.ResolverIgnoresAccountsAndAliases | trust-app.js:129-165 | the resolver's answer does not depend on `accounts` or `aliases` |
| TrustApp.FirstMatchWins | trust-app.js:129-165 | if the record at position i matches, the resolver returns that record or an earlier one |
| TrustApp.ResolvesAt | trust-app.js:129-165 | a record that matches after only non-matching records is the one returned |
| TrustApp.ResolvedIsSearched | trust-app.js:119-169 | for a non-empty term, the record the resolver returns is among the records `search` returns |
| TrustApp.EmptyTermExactPhone | trust-app.js:133 | for the empty term a record with phone `""` matches the resolver but not `search`, so the previous property needs its condition |
| TrustApp.PerformCheck | trust-app.js:71-117 | a check is rejected exactly when the input is blank; "not found" carries the trimmed query, and the resolver finds nothing for it; a shown card carries the record the resolver found, with its card type, score and style |
| TrustApp.CheckedTermNonEmpty | trust-app.js:74-82 | the term a non-blank input reaches the resolver with is not empty |
| TrustApp.ShownIsSearched | trust-app.js:97-106 | a record shown by a check is among the records `search` returns for the trimmed input |
| TrustApp.CardType | trust-app.js:179 | the card type is never empty: the record's level when it is truthy, else `neutral` |
| TrustApp.DisplayScore | trust-app.js:180 | the displayed score is never 0: the record's score when it is truthy, else 50 |
| TrustApp.GetLevelConfig | trust-app.js:534-543 | one of the four styles: the level's own, else the neutral one |
| TrustApp.NeutralConfigIff | trust-app.js:534-543 | a level gets the neutral style exactly when it is not `safe`, `warn` or `danger` |
| TrustApp.AddedRecordShowsAsStored | trust-app.js:179-180 | a record stored by `addRecord` shows with its stored level and score |
| TrustApp.DisplayPhone | trust-app.js:199-202 | the card shows the phone in full, or a dash when it is missing |
| TrustApp.FormatPhonePretty | trust-app.js:205-221 | a dash for a falsy phone; ten or eleven digits grouped 4-3-3 or 4-3-4 with single spaces; any other phone unchanged |
| TrustApp.GroupDigits | trust-app.js:214-217 | the grouped text is two characters longer than the digits, has spaces at positions 4 and 8 and digits everywhere else, and gives the digits back once the non-digits are removed |
| TrustApp.UngroupDigits | trust-app.js:214-217 | removing the separators of the grouped text gives the digits back |
| TrustApp.PrettyKeepsDigits | trust-app.js:199-221 | the pretty form shows exactly the digits, in order, of the phone the card displays |
| TrustApp.SeedLookupPhone | data.js:18-41 | looking up `0868748858` in the database the app starts with finds UYTIN_001, rated safe |
| TrustApp.SeedLookupRisk | data.js:70-98 | looking up `2000` in the database the app starts with skips the first two records and finds the flagged scam record RISK_001 |
| TrustApp.SeedLookupMissing | data.js:17-125 | in the database the app starts with, ten zeros match no record |
| TrustApp.NoMatchWhenAbsent | trust-app.js:129-165 | a record matches no term that is absent from all its resolver fields |
| TrustLite.EffectiveInput | trust.js:50-57 | a truthy argument is used as given; otherwise the input box's value, trimmed; the query is truthy exactly when the argument is, or the box holds something other than white space |
| TrustLite.BoxInputIsTrimmed | trust.js:50-52 | a query taken from the box has no white space at either end |
| TrustLite.Lookup | trust.js:69-71 | nothing exactly when no entry has that phone or account; otherwise an entry with that exact phone or account, the first in table order |
| TrustLite.LookupFindsFirst | trust.js:69-71 | the first matching entry is the one found |
| TrustLite.LiteConfigFor | trust.js:104-110 | the level's own style, else the safe one |
| TrustLite.FallbacksDiffer | trust.js:104-110 | an unknown level looks safe here and neutral in the main app, and the two pages give the danger level different titles |
| TrustLite.Check | trust.js:50-110 | the alert is raised exactly when the effective query is falsy; "not found" carries the query, and the lookup finds nothing for it; a found card carries the entry the lookup found and that entry's style |
| TrustLite.LookupAdminPhone | trust.js:8-17 | `0868748858` finds Nguyễn Công Vinh, score 100, safe |
| TrustLite.LookupTesterAccount | trust.js:27-36 | `66668888` finds the test entry through its account, rated danger |
| TrustLite.NoSubstringMatch | trust.js:69-71 | `200` finds nothing, although it is a prefix of a phone |
| TrustLite.ArgumentNotTrimmed | trust.js:50-57 | an argument `" 2000"` is not trimmed and finds nothing |
| TrustLite.BoxInputTrimmed | trust.js:50-57 | the same text typed into the box is trimmed and finds the test entry |
| TrustLite.BlankBoxRejected | trust.js:54-57 | with no argument, a blank box raises the alert |

## Left out

- DOM work is not modelled: `getElementById`, `innerHTML`, class toggles, the spinner and button state, `showAlert`, `escapeHtml`, and the HTML templates. A check returns the outcome the page would draw instead.
- The 800 ms delays, `async`/`await`, `setTimeout` and the event listeners are not modelled. Each check is one synchronous call.
- The clock and `Math.random` are not modelled. `addRecord` takes the millisecond clock, the random suffix and an ISO time stamp as parameters.
- TrustDatabase.AddRecord: reads the clock once for both the record's date and the statistics stamp. The source calls `new Date()` twice, so the two readings can straddle midnight.
- TrustDatabase.AddRecord: does not model that the source mutates and stores the caller's own object, so later changes to it show in the store.
- TrustDatabase.ExportData: returns a snapshot. The source's payload shares the store's live `records` array and `stats` object, so a later `addRecord` or `updateStats` changes the payload too, and it is not a backup. The model does not track that sharing, nor that `importData` makes the payload's array the store's own.
- The lookups by id, level, phone and bank take a string or `undefined`; `null`, numbers and other argument types are not modelled.
- TrustDatabase.Search: the query is a string. A query that is `undefined`, `null` or a number makes `query.toLowerCase()` throw a `TypeError` in the source; that error path is not modelled.
- TrustLite.Check: the argument is a string or absent. `window.TrustApp` accepts any value; a truthy non-string such as the number `2000` skips the box, equals no stored string under `===`, and so shows the not-found card. Non-string arguments are not modelled.
- TrustDatabase.GeneratedId: the suffix is taken as given. It is not checked to be the base-36 digits `substr(2, 9)` produces.
- Numbers are integers, and `ageYears` is a real. `NaN`, a non-numeric `score` and floating-point detail are not modelled.
- Text.Lower: covers the Latin letters: ASCII, Latin-1, Latin Extended-A, Ơ/Ư and U+1EA0–U+1EF9. Every other character maps to itself. U+0130, which JavaScript lower-cases to two code units, is left unchanged. Strings are sequences of code points, not UTF-16 code units.
- `configs[level]` and `levelText[data.level]` are modelled as map lookups. JavaScript would also find inherited keys such as `constructor` on the object literal.
- TrustApp.PerformCheck: does not model the error card of the `catch` block (trust-app.js:112-116). Besides the resolver, the `try` block renders the card, and its phone and account highlighting builds `new RegExp(query, 'gi')` whenever the shown phone or account contains the trimmed query (trust-app.js:226-228, 238-241). A query that is not a valid pattern, such as `+84` against a phone `+84868`, makes that constructor throw, and the page shows the error card. The model reports `Shown` for that record instead.
- `importData(null)` is not modelled: the JavaScript call would throw. A payload is always an object, and its `records` value is either an array or something else.
- `highlightPhone`, `formatAccount`, sharing, and the `?q=` start-up query of `trust-app.js` are presentation and are not modelled.
- The rendered fields of the `trust.js` card (`data.phone || "—"` and the note default) are presentation and are not modelled.
- `formatPhonePretty` is modelled even though the card calls only `displayPhone`.

=== FILE: data.dfy ===
/** The in-memory trust database of data.js: the seed records, the lookups
    by id, level, phone and bank, appending a record with defaults, the
    statistics block, the multi-field search, and export/import. The store
    is a value; the operations that mutate it in JavaScript return the new
    store. Clock readings and random id suffixes are parameters. */
module TrustDatabase {
  import opened Options
  import opened Text
  import opened Seqs
  import opened Records

  // ---------------------------------------------------------------------
  // Seed data
  // ---------------------------------------------------------------------

  const SeedStats: Stats := Stats(4, "2024-03-15", "2.1")

  /** The admin of the site, rated safe. */
  const Uytin001: TrustRecord := TrustRecord(
    Some("UYTIN_001"),
    Some("0868748858"), ["0868748858", "0987654321"],
    Some("0868748858"), ["0868748858", "1122334455"],
    Some("MB Bank"), ["MB Bank", "Vietcombank"],
    Some("Nguyễn Công Vinh"), ["Vinh NC", "Nguyen Cong Vinh"],
    Some(100), Some("safe"),
    Some("Admin Web nhận giao dịch trung gian"), Some("admin"),
    [], Some(0), Some(0.0), Some(true), Some("2024-03-15"),
    ["admin", "verified", "premium"], Some("Hải Phòng"), [],
    Some(false), None)

  /** A phone seller, rated safe. */
  const Uytin002: TrustRecord := TrustRecord(
    Some("UYTIN_002"),
    Some("0325822569"), ["0325822569"],
    Some("0325822569"), ["0325822569"],
    Some("MB Bank"), ["MB Bank"],
    Some("Nguyễn Vinh Quang"), ["Nguyen Vinh Quang"],
    Some(100), Some("safe"),
    Some("Bán iphone Uy Tín • Chuyên Apple chính hãng"), Some("seller"),
    [Report("2024-02-01", "positive", "Giao dịch tốt, đúng hẹn")],
    Some(0), Some(0.0), Some(true), Some("2024-03-10"),
    ["electronics", "apple", "reliable"], Some("Hải Phòng"), [],
    Some(false), None)

  /** A reported scammer, flagged with a warning. */
  const Risk001: TrustRecord := TrustRecord(
    Some("RISK_001"),
    Some("2000"), ["2000", "0900111222"],
    Some("66668888"), ["66668888", "99990000"],
    Some("Techcombank"), ["Techcombank", "VPBank"],
    Some("NamGay"), ["NamGay"],
    Some(-99), Some("danger"),
    Some("Nhiều báo cáo rủi ro • Lừa đảo qua điện thoại"), Some("scammer"),
    [Report("2024-01-15", "scam", "Lừa tiền đặt cọc"),
     Report("2024-02-20", "scam", "Hàng giả, không giao"),
     Report("2024-03-01", "warning", "SĐT đã bị tố cáo")],
    Some(12), Some(0.5), Some(false), Some("2024-03-05"),
    ["scam", "warning", "blocked"], Some("Không xác định"), [],
    Some(true), Some("⚠️ CẢNH BÁO: Tài khoản này đang bị điều tra"))

  /** A slow trader, rated cautious. */
  const Caution001: TrustRecord := TrustRecord(
    Some("CAUTION_001"),
    Some("1234567890"), ["1234567890"],
    Some("1234567890"), ["1234567890"],
    Some("VietinBank"), ["VietinBank"],
    Some("Nguyễn Phú Trọng"), ["Nguyễn Phú Trọng"],
    Some(65), Some("warn"),
    Some("Giao dịch chậm trễ đôi lúc • Cần theo dõi thêm"), Some("normal"),
    [Report("2024-02-28", "delay", "Giao hàng trễ 3 ngày")],
    Some(24), Some(1.0), Some(true), Some("2024-03-12"),
    ["new", "monitoring"], Some("Đà Nẵng"), [],
    Some(false), None)

  /** The seed records in storage order. */
  const SeedRecords: seq<TrustRecord> := [Uytin001, Uytin002, Risk001, Caution001]

  /** The database as the page sees it after loading: the seed, with its
      statistics recomputed at load time from the clock reading `nowIso`. */
  function Loaded(nowIso: string): (s: Store)
    ensures Consistent(s) && s.records == SeedRecords
  {
    UpdateStats(Store(SeedStats, SeedRecords), nowIso)
  }

  /** The statistics agree with the records. */
  predicate Consistent(s: Store) {
    s.stats.totalRecords == |s.records|
  }

  // ---------------------------------------------------------------------
  // Lookups
  // ---------------------------------------------------------------------

  // An argument is optional: JavaScript also accepts `undefined`, which
  // `===` finds equal only to a missing property.

  function HasId(id: Option<string>): TrustRecord -> bool {
    (r: TrustRecord) => r.id == id
  }

  /** `getRecordById`: the first record whose id is `id`, if any. */
  function GetRecordById(s: Store, id: Option<string>): (r: Option<TrustRecord>)
    ensures r.None? <==> forall x :: x in s.records ==> x.id != id
    ensures r.Some? ==> exists i :: IsFirstMatch(s.records, HasId(id), i) && s.records[i] == r.value
    ensures r.Some? ==> r.value.id == id
  {
    Find(s.records, HasId(id))
  }

  function HasLevel(level: Option<string>): TrustRecord -> bool {
    (r: TrustRecord) => r.level == level
  }

  /** `getRecordsByLevel`: the records at `level`, in storage order, each
      as often as it is stored. */
  function GetRecordsByLevel(s: Store, level: Option<string>): (r: seq<TrustRecord>)
    ensures IsSubseq(r, s.records)
    ensures forall x :: x in r <==> x in s.records && x.level == level
    ensures forall x :: multiset(r)[x] == if x.level == level then multiset(s.records)[x] else 0
  {
    FilterMultiset(s.records, HasLevel(level));
    Filter(s.records, HasLevel(level))
  }

  /** Exact phone match: the primary phone, or an element of `phones` when
      a phone is given (the list holds no `undefined`). */
  predicate PhoneIs(r: TrustRecord, phone: Option<string>) {
    r.phone == phone || (phone.Some? && phone.value in r.phones)
  }

  /** `getRecordsByPhone`: records whose primary phone is `phone` or whose
      `phones` list contains it (equality, not substring), in storage order,
      each as often as it is stored. */
  function GetRecordsByPhone(s: Store, phone: Option<string>): (r: seq<TrustRecord>)
    ensures IsSubseq(r, s.records)
    ensures forall x :: x in r <==> x in s.records && (x.phone == phone || (phone.Some? && phone.value in x.phones))
    ensures forall x :: multiset(r)[x] == if PhoneIs(x, phone) then multiset(s.records)[x] else 0
  {
    var p := (x: TrustRecord) => PhoneIs(x, phone);
    FilterMultiset(s.records, p);
    Filter(s.records, p)
  }

  /** Exact bank match: the primary bank, or an element of `banks` when a
      bank is given. */
  predicate BankIs(r: TrustRecord, bank: Option<string>) {
    r.bank == bank || (bank.Some? && bank.value in r.banks)
  }

  /** `getRecordsByBank`: records whose primary bank is `bank` or whose
      `banks` list contains it, in storage order, each as often as it is
      stored. */
  function GetRecordsByBank(s: Store, bank: Option<string>): (r: seq<TrustRecord>)
    ensures IsSubseq(r, s.records)
    ensures forall x :: x in r <==> x in s.records && (x.bank == bank || (bank.Some? && bank.value in x.banks))
    ensures forall x :: multiset(r)[x] == if BankIs(x, bank) then multiset(s.records)[x] else 0
  {
    var p := (x: TrustRecord) => BankIs(x, bank);
    FilterMultiset(s.records, p);
    Filter(s.records, p)
  }

  // ---------------------------------------------------------------------
  // Adding records
  // ---------------------------------------------------------------------

  /** `updateStats`: recount the records and stamp the time. */
  function UpdateStats(s: Store, nowIso: string): (r: Store)
    ensures Consistent(r)
    ensures r.records == s.records
    ensures r.stats.lastUpdated == nowIso && r.stats.version == s.stats.version
  {
    s.(stats := s.stats.(totalRecords := |s.records|, lastUpdated := nowIso))
  }

  /** The id `addRecord` generates: "REC_", the millisecond clock, "_", and
      the random base-36 suffix. */
  function GeneratedId(millis: nat, suffix: string): (id: string)
    ensures |id| > 4 && id[..4] == "REC_"
  {
    "REC_" + NatToDecimal(millis) + "_" + suffix
  }

  /** `a` and `b` agree on every field except the four `addRecord` sets. */
  predicate SameExceptDefaults(a: TrustRecord, b: TrustRecord) {
    a == b.(id := a.id, score := a.score, level := a.level, lastUpdated := a.lastUpdated)
  }

  datatype AddResult = AddResult(store: Store, id: string)

  /** `addRecord`: fill in the defaults, append, recount; return the id.
      `millis`, `suffix` and `nowIso` are the clock and random readings. */
  function AddRecord(s: Store, rec: TrustRecord, millis: nat, suffix: string, nowIso: string): (r: AddResult)
    ensures |r.store.records| == |s.records| + 1
    ensures r.store.records[..|s.records|] == s.records
    ensures Consistent(r.store)
    ensures r.store.stats.lastUpdated == nowIso && r.store.stats.version == s.stats.version
    ensures r.id != ""
    ensures Truthy(rec.id) ==> r.id == rec.id.value
    ensures !Truthy(rec.id) ==> r.id == GeneratedId(millis, suffix)
    ensures var stored := r.store.records[|s.records|];
      && stored.id == Some(r.id)
      && stored.score == (if TruthyNumber(rec.score) then rec.score else Some(50))
      && stored.level == (if Truthy(rec.level) then rec.level else Some("neutral"))
      && stored.lastUpdated == Some(BeforeFirstT(nowIso))
      && SameExceptDefaults(stored, rec)
  {
    var id := if Truthy(rec.id) then rec.id.value else GeneratedId(millis, suffix);
    var stored := rec.(
      id := Some(id),
      score := if TruthyNumber(rec.score) then rec.score else Some(50),
      level := if Truthy(rec.level) then rec.level else Some("neutral"),
      lastUpdated := Some(BeforeFirstT(nowIso)));
    var appended := s.(records := s.records + [stored]);
    assert appended.records[..|s.records|] == s.records;
    AddResult(UpdateStats(appended, nowIso), id)
  }

  /** After adding a record under an id no earlier record carries, looking
      that id up finds the new record; an id already in use keeps finding
      the earlier record. */
  lemma AddThenGetById(s: Store, rec: TrustRecord, millis: nat, suffix: string, nowIso: string)
    ensures var r := AddRecord(s, rec, millis, suffix, nowIso);
      && ((forall x :: x in s.records ==> x.id != Some(r.id))
            ==> GetRecordById(r.store, Some(r.id)) == Some(r.store.records[|s.records|]))
      && ((exists x :: x in s.records && x.id == Some(r.id))
            ==> GetRecordById(r.store, Some(r.id)) == GetRecordById(s, Some(r.id)))
  {
    var r := AddRecord(s, rec, millis, suffix, nowIso);
    var rs := r.store.records;
    assert rs == s.records + [rs[|s.records|]];
    FindAppend(s.records, rs[|s.records|], HasId(Some(r.id)));
  }

  /** Looking for the first match in a list extended at the end finds the
      same element as before, or the new one if nothing earlier matched. */
  lemma FindAppend<T(!new)>(xs: seq<T>, y: T, p: T -> bool)
    ensures Find(xs + [y], p) == if Find(xs, p).Some? then Find(xs, p) else if p(y) then Some(y) else None
  {
    var ys := xs + [y];
    match Find(xs, p)
    case Some(v) =>
      var i :| IsFirstMatch(xs, p, i) && xs[i] == v;
      assert IsFirstMatch(ys, p, i);
      var j :| IsFirstMatch(ys, p, j) && ys[j] == Find(ys, p).value;
      FirstMatchUnique(ys, p, i, j);
    case None =>
      if p(y) {
        assert IsFirstMatch(ys, p, |xs|);
        var j :| IsFirstMatch(ys, p, j) && ys[j] == Find(ys, p).value;
        FirstMatchUnique(ys, p, |xs|, j);
      } else {
        assert forall x :: x in ys ==> x in xs || x == y;
      }
  }

  /** Adding a record leaves the level filter over the earlier records as it
      was, extended by the new record exactly when it has that level. */
  lemma AddThenGetByLevel(s: Store, rec: TrustRecord, millis: nat, suffix: string, nowIso: string, level: Option<string>)
    ensures var r := AddRecord(s, rec, millis, suffix, nowIso);
      var stored := r.store.records[|s.records|];
      GetRecordsByLevel(r.store, level)
        == GetRecordsByLevel(s, level) + (if stored.level == level then [stored] else [])
  {
    var r := AddRecord(s, rec, millis, suffix, nowIso);
    var stored := r.store.records[|s.records|];
    assert r.store.records == s.records + [stored];
    FilterAppend(s.records, [stored], HasLevel(level));
  }

  // ---------------------------------------------------------------------
  // Search
  // ---------------------------------------------------------------------

  /** `query.toLowerCase().trim()`: the query lower-cased, without the
      white space at its ends. It is empty exactly when the query is blank. */
  function SearchTerm(query: string): (t: string)
    ensures |t| <= |query|
    ensures t == "" <==> IsBlank(query)
  {
    LowerKeepsBlankness(query);
    Trim(Lower(query))
  }

  /** A search term is already lower case, and is its own search term. */
  lemma SearchTermIdempotent(query: string)
    ensures Lower(SearchTerm(query)) == SearchTerm(query)
    ensures SearchTerm(SearchTerm(query)) == SearchTerm(query)
  {
    var t := SearchTerm(query);
    var a := LeadingSpaces(Lower(query));
    assert forall k :: 0 <= k < |t| ==> t[k] == Lower(query)[a + k];
    assert Lower(t) == t;
    if t != "" {
      assert !IsJsSpace(t[0]) && !IsJsSpace(t[|t| - 1]);
      assert Trim(t) == Trim(Trim(Lower(query)));
      TrimIdempotent(Lower(query));
    }
  }

  /** `s && s.includes(t)` on an optional string. */
  predicate FieldIncludes(s: Option<string>, t: string) {
    Truthy(s) && Includes(s.value, t)
  }

  /** `s && s.toLowerCase().includes(t)` on an optional string. */
  predicate FieldIncludesLower(s: Option<string>, t: string) {
    Truthy(s) && Includes(Lower(s.value), t)
  }

  /** `xs.some(x => x && x.includes(t))`. */
  predicate SomeIncludes(xs: seq<string>, t: string) {
    exists k :: 0 <= k < |xs| && xs[k] != "" && Includes(xs[k], t)
  }

  /** `xs.some(x => x && x.toLowerCase().includes(t))`. */
  predicate SomeIncludesLower(xs: seq<string>, t: string) {
    exists k :: 0 <= k < |xs| && xs[k] != "" && Includes(Lower(xs[k]), t)
  }

  /** The filter predicate of `search`, its checks in the code's order. */
  predicate SearchMatch(r: TrustRecord, t: string) {
    || FieldIncludes(r.phone, t)
    || SomeIncludes(r.phones, t)
    || FieldIncludes(r.account, t)
    || SomeIncludes(r.accounts, t)
    || FieldIncludesLower(r.name, t)
    || SomeIncludesLower(r.aliases, t)
    || FieldIncludesLower(r.bank, t)
    || FieldIncludesLower(r.location, t)
  }

  /** `search`: every record one of whose searchable fields contains the
      lower-cased, trimmed query, in storage order. */
  function Search(s: Store, query: string): (r: seq<TrustRecord>)
    ensures IsSubseq(r, s.records)
    ensures forall x :: x in r <==> x in s.records && SearchMatch(x, SearchTerm(query))
    ensures forall x :: multiset(r)[x] == if SearchMatch(x, SearchTerm(query)) then multiset(s.records)[x] else 0
  {
    var t := SearchTerm(query);
    var p := (x: TrustRecord) => SearchMatch(x, t);
    FilterMultiset(s.records, p);
    Filter(s.records, p)
  }

  /** The present, non-empty value of an optional string, as a list. */
  function Present(s: Option<string>): seq<string> {
    if Truthy(s) then [s.value] else []
  }

  /** The non-empty strings of a list. */
  function NonEmpty(xs: seq<string>): seq<string> {
    Filter(xs, x => x != "")
  }

  function LowerAll(xs: seq<string>): (r: seq<string>)
    ensures |r| == |xs| && forall k :: 0 <= k < |xs| ==> r[k] == Lower(xs[k])
  {
    seq(|xs|, k requires 0 <= k < |xs| => Lower(xs[k]))
  }

  /** The texts `search` looks in: phone numbers and account numbers as
      stored, names, aliases, bank and location lower-cased; empty and
      missing values left out. */
  function SearchHaystack(r: TrustRecord): seq<string> {
    Present(r.phone) + NonEmpty(r.phones) + Present(r.account) + NonEmpty(r.accounts)
    + LowerAll(Present(r.name)) + LowerAll(NonEmpty(r.aliases))
    + LowerAll(Present(r.bank)) + LowerAll(Present(r.location))
  }

  /** Some text of `xs` contains `t`. */
  predicate AnyIncludes(xs: seq<string>, t: string) {
    exists f :: f in xs && Includes(f, t)
  }

  lemma AnyIncludesAppend(a: seq<string>, b: seq<string>, t: string)
    ensures AnyIncludes(a + b, t) <==> AnyIncludes(a, t) || AnyIncludes(b, t)
  {
    if AnyIncludes(a + b, t) {
      var f :| f in a + b && Includes(f, t);
      assert f in a || f in b;
    }
    if AnyIncludes(a, t) {
      var f :| f in a && Includes(f, t);
      assert f in a + b;
    }
    if AnyIncludes(b, t) {
      var f :| f in b && Includes(f, t);
      assert f in a + b;
    }
  }

  lemma AnyIncludesPresent(s: Option<string>, t: string)
    ensures AnyIncludes(Present(s), t) <==> FieldIncludes(s, t)
    ensures AnyIncludes(LowerAll(Present(s)), t) <==> FieldIncludesLower(s, t)
  {
    if Truthy(s) {
      assert s.value in Present(s);
      assert Lower(s.value) in LowerAll(Present(s));
    }
  }

  lemma AnyIncludesNonEmpty(xs: seq<string>, t: string)
    ensures AnyIncludes(NonEmpty(xs), t) <==> SomeIncludes(xs, t)
    ensures AnyIncludes(LowerAll(NonEmpty(xs)), t) <==> SomeIncludesLower(xs, t)
  {
    var ne := NonEmpty(xs);
    var lo := LowerAll(ne);
    if AnyIncludes(ne, t) {
      var f :| f in ne && Includes(f, t);
      var k :| 0 <= k < |xs| && xs[k] == f;
    }
    if SomeIncludes(xs, t) {
      var k :| 0 <= k < |xs| && xs[k] != "" && Includes(xs[k], t);
      assert xs[k] in ne;
    }
    if AnyIncludes(lo, t) {
      var f :| f in lo && Includes(f, t);
      var i :| 0 <= i < |lo| && lo[i] == f;
      assert ne[i] in ne;
      var k :| 0 <= k < |xs| && xs[k] == ne[i];
    }
    if SomeIncludesLower(xs, t) {
      var k :| 0 <= k < |xs| && xs[k] != "" && Includes(Lower(xs[k]), t);
      assert xs[k] in ne;
      var i :| 0 <= i < |ne| && ne[i] == xs[k];
      assert lo[i] in lo;
    }
  }

  /** A record matches `search` exactly when one of its searchable texts
      contains the term. */
  lemma SearchMatchIffHaystack(r: TrustRecord, t: string)
    ensures SearchMatch(r, t) <==> AnyIncludes(SearchHaystack(r), t)
  {
    var p1, p2, p3, p4 := Present(r.phone), NonEmpty(r.phones), Present(r.account), NonEmpty(r.accounts);
    var p5, p6 := LowerAll(Present(r.name)), LowerAll(NonEmpty(r.aliases));
    var p7, p8 := LowerAll(Present(r.bank)), LowerAll(Present(r.location));
    AnyIncludesAppend(p1, p2, t);
    AnyIncludesAppend(p1 + p2, p3, t);
    AnyIncludesAppend(p1 + p2 + p3, p4, t);
    AnyIncludesAppend(p1 + p2 + p3 + p4, p5, t);
    AnyIncludesAppend(p1 + p2 + p3 + p4 + p5, p6, t);
    AnyIncludesAppend(p1 + p2 + p3 + p4 + p5 + p6, p7, t);
    AnyIncludesAppend(p1 + p2 + p3 + p4 + p5 + p6 + p7, p8, t);
    AnyIncludesPresent(r.phone, t);
    AnyIncludesPresent(r.account, t);
    AnyIncludesPresent(r.name, t);
    AnyIncludesPresent(r.bank, t);
    AnyIncludesPresent(r.location, t);
    AnyIncludesNonEmpty(r.phones, t);
    AnyIncludesNonEmpty(r.accounts, t);
    AnyIncludesNonEmpty(r.aliases, t);
  }

  /** `search` ignores letter case in the query. */
  lemma SearchCaseInsensitive(s: Store, query: string)
    ensures Search(s, Lower(query)) == Search(s, query)
  {
    LowerIdempotent(query);
  }

  // ---------------------------------------------------------------------
  // Export and import
  // ---------------------------------------------------------------------

  /** The value found under a payload's `records` key: an array of records,
      or anything else (missing, `null`, an object, a string, ...). */
  datatype RecordsValue = NonArray | ArrayValue(items: seq<TrustRecord>)

  /** A backup payload as `exportData` builds it and `importData` reads it. */
  datatype Payload = Payload(stats: Option<Stats>, records: RecordsValue, exportedAt: Option<string>)

  /** `exportData`: statistics, records and an export time stamp. */
  function ExportData(s: Store, nowIso: string): (p: Payload)
    ensures p.records == ArrayValue(s.records) && p.stats == Some(s.stats)
  {
    Payload(Some(s.stats), ArrayValue(s.records), Some(nowIso))
  }

  datatype ImportResult = ImportResult(store: Store, ok: bool)

  /** `importData`: replace the records when the payload carries an array
      of them, else report failure and change nothing. */
  function ImportData(s: Store, data: Payload, nowIso: string): (r: ImportResult)
    ensures r.ok <==> data.records.ArrayValue?
    ensures r.ok ==> (r.store.records == data.records.items && Consistent(r.store)
        && r.store.stats.lastUpdated == nowIso && r.store.stats.version == s.stats.version)
    ensures !r.ok ==> r.store == s
  {
    match data.records
    case ArrayValue(items) => ImportResult(UpdateStats(s.(records := items), nowIso), true)
    case NonArray => ImportResult(s, false)
  }

  /** Importing what was just exported succeeds and keeps the records; a
      consistent store keeps its record count too. */
  lemma ImportExportRoundTrip(s: Store, exportTime: string, importTime: string)
    ensures var r := ImportData(s, ExportData(s, exportTime), importTime);
      && r.ok
      && r.store.records == s.records
      && (Consistent(s) ==> r.store.stats.totalRecords == s.stats.totalRecords)
  {
  }
}

=== FILE: options.dfy ===
/** The absent-or-present wrapper used wherever the JavaScript source reads a
    property that may be `undefined`, or returns `undefined`/`null` for
    "nothing found". */
module Options {

  datatype Option<+T> = None | Some(value: T)
}

=== FILE: records.dfy ===
/** The trust record and the store that holds the records. Every property the
    JavaScript code may find missing is an `Option` (`None` = `undefined`);
    the code's `x && ...` guards also reject the empty string, which
    `Truthy` captures. Lists that may be missing are sequences, a missing
    list behaving like an empty one in every operation modelled. */
module Records {
  import opened Options

  /** One entry of a record's report history. */
  datatype Report = Report(date: string, kind: string, note: string)

  datatype TrustRecord = TrustRecord(
    id: Option<string>,
    phone: Option<string>,
    phones: seq<string>,
    account: Option<string>,
    accounts: seq<string>,
    bank: Option<string>,
    banks: seq<string>,
    name: Option<string>,
    aliases: seq<string>,
    score: Option<int>,
    level: Option<string>,
    note: Option<string>,
    category: Option<string>,
    reports: seq<Report>,
    transactionCount: Option<int>,
    ageYears: Option<real>,
    verified: Option<bool>,
    lastUpdated: Option<string>,
    tags: seq<string>,
    location: Option<string>,
    socialLinks: seq<string>,
    warning: Option<bool>,
    warningMessage: Option<string>)

  /** The store's statistics block. */
  datatype Stats = Stats(totalRecords: int, lastUpdated: string, version: string)

  /** The database object: its statistics and its records in storage order. */
  datatype Store = Store(stats: Stats, records: seq<TrustRecord>)

  /** A card style: title, icon and colour of a result card. */
  datatype LevelConfig = LevelConfig(title: string, icon: string, color: string)

  /** JavaScript truthiness of an optional string: present and non-empty. */
  predicate Truthy(s: Option<string>) {
    s.Some? && s.value != ""
  }

  /** JavaScript truthiness of an optional number: present and non-zero. */
  predicate TruthyNumber(n: Option<int>) {
    n.Some? && n.value != 0
  }

  /** A record with every property missing: optional fields absent, lists
      empty. Records written with only some properties start from it. */
  function Blank(): TrustRecord {
    TrustRecord(None, None, [], None, [], None, [], None, [], None, None, None, None,
                [], None, None, None, None, [], None, [], None, None)
  }
}

=== FILE: seqs.dfy ===
/** The two list primitives the record store is built from: JavaScript's
    `Array.prototype.filter` and `Array.prototype.find`, with their order and
    membership laws. */
module Seqs {
  import opened Options

  /** `a` is obtained from `b` by deleting elements, keeping the order of the rest. */
  predicate IsSubseq<T(==)>(a: seq<T>, b: seq<T>)
    decreases |b|
  {
    if |a| == 0 then true
    else if |b| == 0 then false
    else if a[0] == b[0] then IsSubseq(a[1..], b[1..])
    else IsSubseq(a, b[1..])
  }

  /** `xs.filter(p)`: the elements satisfying `p`, in their original order,
      each with its original multiplicity. */
  function Filter<T(==,!new)>(xs: seq<T>, p: T -> bool): (r: seq<T>)
    ensures IsSubseq(r, xs)
    ensures forall x :: x in r <==> x in xs && p(x)
  {
    if |xs| == 0 then []
    else
      var rest := Filter(xs[1..], p);
      assert xs == [xs[0]] + xs[1..];
      if p(xs[0]) then [xs[0]] + rest else rest
  }

  /** Filtering keeps every element satisfying `p` as often as it occurs in
      `xs`, and no other element; with `IsSubseq` this pins the result down. */
  lemma {:induction false} FilterMultiset<T(!new)>(xs: seq<T>, p: T -> bool)
    ensures forall x :: multiset(Filter(xs, p))[x] == if p(x) then multiset(xs)[x] else 0
  {
    if |xs| > 0 {
      FilterMultiset(xs[1..], p);
      assert xs == [xs[0]] + xs[1..];
    }
  }

  /** Filtering a concatenation filters each part. */
  lemma {:induction false} FilterAppend<T(!new)>(a: seq<T>, b: seq<T>, p: T -> bool)
    ensures Filter(a + b, p) == Filter(a, p) + Filter(b, p)
  {
    if |a| == 0 {
      assert a + b == b;
    } else {
      var ab := a + b;
      assert ab[0] == a[0] && ab[1..] == a[1..] + b;
      FilterAppend(a[1..], b, p);
      var head := if p(a[0]) then [a[0]] else [];
      assert Filter(ab, p) == head + Filter(a[1..] + b, p);
      assert Filter(a, p) == head + Filter(a[1..], p);
    }
  }

  /** Filtering with a predicate every element satisfies changes nothing. */
  lemma {:induction false} FilterAll<T(!new)>(xs: seq<T>, p: T -> bool)
    requires forall x :: x in xs ==> p(x)
    ensures Filter(xs, p) == xs
  {
    if |xs| > 0 {
      FilterAll(xs[1..], p);
    }
  }

  /** Position `i` holds an element satisfying `p` and no earlier one does. */
  predicate IsFirstMatch<T>(xs: seq<T>, p: T -> bool, i: int) {
    && 0 <= i < |xs|
    && p(xs[i])
    && forall j :: 0 <= j < i ==> !p(xs[j])
  }

  /** `xs.findIndex(p)`, with `None` for JavaScript's `-1`. */
  function FindIndex<T>(xs: seq<T>, p: T -> bool): (r: Option<nat>)
    ensures r.Some? ==> IsFirstMatch(xs, p, r.value)
    ensures r.None? <==> forall j :: 0 <= j < |xs| ==> !p(xs[j])
  {
    if |xs| == 0 then None
    else if p(xs[0]) then Some(0)
    else
      match FindIndex(xs[1..], p)
      case None => None
      case Some(i) => Some(i + 1)
  }

  /** `xs.find(p)`: the first element satisfying `p`, or `None` for `undefined`. */
  function Find<T(!new)>(xs: seq<T>, p: T -> bool): (r: Option<T>)
    ensures r.None? <==> forall x :: x in xs ==> !p(x)
    ensures r.Some? ==> exists i :: IsFirstMatch(xs, p, i) && xs[i] == r.value
  {
    match FindIndex(xs, p)
    case None => None
    case Some(i) => Some(xs[i])
  }

  /** There is only one first match. */
  lemma FirstMatchUnique<T>(xs: seq<T>, p: T -> bool, i: int, j: int)
    requires IsFirstMatch(xs, p, i) && IsFirstMatch(xs, p, j)
    ensures i == j
  {
  }
}

=== FILE: text.dfy ===
/** String primitives of the JavaScript runtime that the lookup code relies on:
    `String.prototype.trim`, `toLowerCase`, `includes`, the `\D` character
    class, `split('T')[0]` on an ISO timestamp, and number-to-string for a
    millisecond clock value. Strings are sequences of code points; for the
    Basic Multilingual Plane text of the records this coincides with
    JavaScript's UTF-16 code units. */
module Text {

  // ---------------------------------------------------------------------
  // trim
  // ---------------------------------------------------------------------

  /** ECMAScript WhiteSpace and LineTerminator code points, the set `trim` removes. */
  predicate IsJsSpace(c: char) {
    || c == '\t' || c == '\n' || c == '\U{000B}' || c == '\U{000C}' || c == '\r'
    || c == ' ' || c == '\U{00A0}' || c == '\U{1680}'
    || ('\U{2000}' <= c <= '\U{200A}')
    || c == '\U{2028}' || c == '\U{2029}' || c == '\U{202F}' || c == '\U{205F}'
    || c == '\U{3000}' || c == '\U{FEFF}'
  }

  /** Every character of `s` is white space (vacuously true of ""). */
  predicate IsBlank(s: string) {
    forall k :: 0 <= k < |s| ==> IsJsSpace(s[k])
  }

  /** Number of white-space characters at the start of `s`. */
  function LeadingSpaces(s: string): (n: nat)
    ensures n <= |s|
    ensures forall k :: 0 <= k < n ==> IsJsSpace(s[k])
    ensures n < |s| ==> !IsJsSpace(s[n])
  {
    if |s| == 0 || !IsJsSpace(s[0]) then 0 else 1 + LeadingSpaces(s[1..])
  }

  /** Number of white-space characters at the end of `s`. */
  function TrailingSpaces(s: string): (n: nat)
    ensures n <= |s|
    ensures forall k :: |s| - n <= k < |s| ==> IsJsSpace(s[k])
    ensures n < |s| ==> !IsJsSpace(s[|s| - n - 1])
  {
    if |s| == 0 || !IsJsSpace(s[|s| - 1]) then 0 else 1 + TrailingSpaces(s[..|s| - 1])
  }

  /** `r` is the slice of `s` starting at `a`, and everything of `s` outside
      that slice is white space. */
  predicate TrimmedAt(s: string, r: string, a: nat) {
    && a + |r| <= |s|
    && s[a..a + |r|] == r
    && (forall k :: 0 <= k < a ==> IsJsSpace(s[k]))
    && (forall k :: a + |r| <= k < |s| ==> IsJsSpace(s[k]))
  }

  /** `s.trim()`: strip leading and trailing white space. */
  function Trim(s: string): (r: string)
    ensures TrimmedAt(s, r, LeadingSpaces(s))
    ensures r != [] ==> !IsJsSpace(r[0]) && !IsJsSpace(r[|r| - 1])
    ensures r == [] <==> IsBlank(s)
  {
    var a := LeadingSpaces(s);
    var rest := s[a..];
    var b := TrailingSpaces(rest);
    var r := rest[..|rest| - b];
    assert r != [] ==> r[0] == s[a];
    r
  }

  /** Trimming is idempotent. */
  lemma TrimIdempotent(s: string)
    ensures Trim(Trim(s)) == Trim(s)
  {
    var r := Trim(s);
    if r != [] {
      assert LeadingSpaces(r) == 0;
      assert TrailingSpaces(r) == 0;
      assert r[0..|r|] == r;
    }
  }

  // ---------------------------------------------------------------------
  // toLowerCase
  // ---------------------------------------------------------------------

  /** Upper-case letters whose lower-case form is the next code point. */
  predicate IsUpperPlusOne(c: char) {
    var n := c as int;
    || (0x0100 <= n <= 0x012F && n % 2 == 0)
    || (0x0132 <= n <= 0x0137 && n % 2 == 0)
    || (0x0139 <= n <= 0x0148 && n % 2 == 1)
    || (0x014A <= n <= 0x0177 && n % 2 == 0)
    || (0x0179 <= n <= 0x017E && n % 2 == 1)
    || n == 0x01A0 || n == 0x01AF
    || (0x1EA0 <= n <= 0x1EF9 && n % 2 == 0)
  }

  /** Upper-case letters whose lower-case form is 0x20 further on. */
  predicate IsUpperPlus32(c: char) {
    || ('A' <= c <= 'Z')
    || ('\U{00C0}' <= c <= '\U{00DE}' && c != '\U{00D7}')
  }

  /** One code point of `toLowerCase`, for the Latin letters (ASCII, Latin-1,
      Latin Extended-A, the Vietnamese horned and stroked letters and the
      Vietnamese block U+1EA0..U+1EF9). Everything else maps to itself. */
  function LowerChar(c: char): char {
    if IsUpperPlus32(c) then (c as int + 0x20) as char
    else if IsUpperPlusOne(c) then (c as int + 1) as char
    else if c == '\U{0178}' then '\U{00FF}'
    else c
  }

  /** `s.toLowerCase()`, one code point at a time: ASCII capitals become
      their small letters, every other character below U+00C0 is kept, and
      lower-casing any character of the result again leaves it alone. */
  function Lower(s: string): (r: string)
    ensures |r| == |s|
    ensures forall k :: 0 <= k < |s| ==> r[k] == LowerChar(s[k])
    ensures forall k :: 0 <= k < |s| && 'A' <= s[k] <= 'Z' ==> r[k] == (s[k] as int + 32) as char
    ensures forall k :: 0 <= k < |s| && s[k] < '\U{00C0}' && !('A' <= s[k] <= 'Z') ==> r[k] == s[k]
    ensures forall k :: 0 <= k < |r| ==> LowerChar(r[k]) == r[k]
  {
    seq(|s|, k requires 0 <= k < |s| => LowerChar(s[k]))
  }

  /** Lower-casing never creates or removes white space. */
  lemma LowerCharKeepsSpace(c: char)
    ensures IsJsSpace(LowerChar(c)) == IsJsSpace(c)
  {
  }

  /** A lower-cased character is already lower case. */
  lemma LowerCharIdempotent(c: char)
    ensures LowerChar(LowerChar(c)) == LowerChar(c)
  {
  }

  /** Lower-casing twice is lower-casing once. */
  lemma LowerIdempotent(s: string)
    ensures Lower(Lower(s)) == Lower(s)
  {
    forall k | 0 <= k < |s|
      ensures Lower(Lower(s))[k] == Lower(s)[k]
    {
      LowerCharIdempotent(s[k]);
    }
  }

  /** A string with a non-blank character stays non-blank once lower-cased. */
  lemma LowerKeepsBlankness(s: string)
    ensures IsBlank(Lower(s)) == IsBlank(s)
  {
    if !IsBlank(s) {
      var k :| 0 <= k < |s| && !IsJsSpace(s[k]);
      LowerCharKeepsSpace(s[k]);
    } else {
      forall k | 0 <= k < |s| ensures IsJsSpace(Lower(s)[k]) {
        LowerCharKeepsSpace(s[k]);
      }
    }
  }

  // ---------------------------------------------------------------------
  // includes
  // ---------------------------------------------------------------------

  /** `t` occurs in `s` starting at index `i`. */
  predicate OccursAt(s: string, t: string, i: int) {
    0 <= i && i + |t| <= |s| && s[i..i + |t|] == t
  }

  /** `s.includes(t)`: does `t` occur somewhere in `s`? */
  function Includes(s: string, t: string): (b: bool)
    ensures b <==> exists i :: OccursAt(s, t, i)
    decreases |s|
  {
    if |t| <= |s| && s[..|t|] == t then
      assert OccursAt(s, t, 0);
      true
    else if |s| == 0 then
      assert forall i :: !OccursAt(s, t, i);
      false
    else
      var b := Includes(s[1..], t);
      assert forall i :: OccursAt(s[1..], t, i) <==> OccursAt(s, t, i + 1) by {
        forall i ensures OccursAt(s[1..], t, i) <==> OccursAt(s, t, i + 1) {
          if 0 <= i && i + |t| <= |s| - 1 {
            assert s[1..][i..i + |t|] == s[i + 1..i + 1 + |t|];
          }
        }
      }
      assert b ==> exists i :: OccursAt(s, t, i) by {
        if b {
          var i :| OccursAt(s[1..], t, i);
          assert OccursAt(s, t, i + 1);
        }
      }
      assert (exists i :: OccursAt(s, t, i)) ==> b by {
        if exists i :: OccursAt(s, t, i) {
          var i :| OccursAt(s, t, i);
          assert i != 0;
          assert OccursAt(s[1..], t, i - 1);
        }
      }
      b
  }

  /** The empty string occurs in every string. */
  lemma IncludesEmpty(s: string)
    ensures Includes(s, "")
  {
    assert OccursAt(s, "", 0);
  }

  /** Every string includes itself. */
  lemma IncludesSelf(s: string)
    ensures Includes(s, s)
  {
    assert OccursAt(s, s, 0);
  }

  /** A needle whose first character is absent from `s` does not occur in it. */
  lemma NotIncludesMissingChar(s: string, t: string)
    requires |t| > 0 && t[0] !in s
    ensures !Includes(s, t)
  {
  }

  /** A needle with more copies of some character than `s` has does not
      occur in it. */
  lemma NotIncludesByCount(s: string, t: string, c: char)
    requires multiset(t)[c] > multiset(s)[c]
    ensures !Includes(s, t)
  {
    IncludesCount(s, t, c);
  }

  /** `s` has at least as many copies of each character as a string it includes. */
  lemma IncludesCount(s: string, t: string, c: char)
    ensures Includes(s, t) ==> multiset(t)[c] <= multiset(s)[c]
  {
    if Includes(s, t) {
      var i :| OccursAt(s, t, i);
      OccurrenceCount(s, t, i, c);
    }
  }

  /** An occurrence of `t` in `s` uses up that many copies of each character. */
  lemma OccurrenceCount(s: string, t: string, i: int, c: char)
    requires OccursAt(s, t, i)
    ensures multiset(t)[c] <= multiset(s)[c]
  {
    assert s == s[..i] + t + s[i + |t|..];
    assert multiset(s) == multiset(s[..i]) + multiset(t) + multiset(s[i + |t|..]);
  }

  /** Lower-casing maps no other character onto a digit, and keeps digits. */
  lemma LowerKeepsDigit(s: string, c: char)
    requires IsDigit(c)
    ensures c in Lower(s) <==> c in s
  {
    if c in Lower(s) {
      var k :| 0 <= k < |s| && Lower(s)[k] == c;
      assert s[k] == c;
    }
    if c in s {
      var k :| 0 <= k < |s| && s[k] == c;
      assert Lower(s)[k] == c;
    }
  }

  /** Trimming a string that neither starts nor ends with white space
      returns it unchanged. */
  lemma TrimNoSpaceEnds(s: string)
    requires s != [] ==> !IsJsSpace(s[0]) && !IsJsSpace(s[|s| - 1])
    ensures Trim(s) == s
  {
    if s != [] {
      assert LeadingSpaces(s) == 0;
      assert s[0..|s|] == s;
    }
  }

  // ---------------------------------------------------------------------
  // digits
  // ---------------------------------------------------------------------

  /** The JavaScript regular-expression class `\d`: ASCII digits only. */
  predicate IsDigit(c: char) {
    '0' <= c <= '9'
  }

  predicate AllDigits(s: string) {
    forall k :: 0 <= k < |s| ==> IsDigit(s[k])
  }

  /** `s.replace(/\D/g, '')`: keep the digits, in order. */
  function StripNonDigits(s: string): (r: string)
    ensures AllDigits(r)
    ensures |r| <= |s|
    ensures AllDigits(s) ==> r == s
  {
    if |s| == 0 then []
    else (if IsDigit(s[0]) then [s[0]] else []) + StripNonDigits(s[1..])
  }

  /** Stripping keeps exactly the digits of `s`. */
  lemma {:induction false} StripNonDigitsMembers(s: string, c: char)
    ensures c in StripNonDigits(s) <==> c in s && IsDigit(c)
  {
    if |s| > 0 {
      StripNonDigitsMembers(s[1..], c);
      assert s == [s[0]] + s[1..];
    }
  }

  /** Stripping the non-digits of a concatenation strips each part. */
  lemma {:induction false} StripNonDigitsAppend(a: string, b: string)
    ensures StripNonDigits(a + b) == StripNonDigits(a) + StripNonDigits(b)
  {
    if |a| > 0 {
      assert (a + b)[1..] == a[1..] + b;
      StripNonDigitsAppend(a[1..], b);
    } else {
      assert a + b == b;
    }
  }

  /** The decimal digit for `d < 10`. */
  function DigitChar(d: nat): (c: char)
    requires d < 10
    ensures IsDigit(c)
  {
    ('0' as int + d) as char
  }

  /** `String(n)` for a non-negative integer: its decimal digits, no leading zero. */
  function NatToDecimal(n: nat): (r: string)
    ensures |r| >= 1 && AllDigits(r)
    ensures |r| > 1 ==> r[0] != '0'
  {
    if n < 10 then [DigitChar(n)] else NatToDecimal(n / 10) + [DigitChar(n % 10)]
  }

  /** The value of a string of decimal digits. */
  function DecimalValue(s: string): nat
    requires AllDigits(s)
  {
    if |s| == 0 then 0
    else DecimalValue(s[..|s| - 1]) * 10 + (s[|s| - 1] as int - '0' as int)
  }

  /** Reading back the decimal rendering of `n` gives `n`. */
  lemma {:induction false} DecimalRoundTrip(n: nat)
    ensures DecimalValue(NatToDecimal(n)) == n
  {
    if n >= 10 {
      var r := NatToDecimal(n);
      assert r[..|r| - 1] == NatToDecimal(n / 10);
      DecimalRoundTrip(n / 10);
    }
  }

  // ---------------------------------------------------------------------
  // split('T')[0]
  // ---------------------------------------------------------------------

  /** `s.split('T')[0]`: the part of `s` before its first 'T' (all of `s` if none). */
  function BeforeFirstT(s: string): (r: string)
    ensures |r| <= |s| && s[..|r|] == r
    ensures 'T' !in r
    ensures |r| < |s| ==> s[|r|] == 'T'
  {
    if |s| == 0 || s[0] == 'T' then [] else [s[0]] + BeforeFirstT(s[1..])
  }
}

=== FILE: trust.dfy ===
/** The stand-alone checker of trust.js: a three-entry table searched by
    exact phone or account, behind an input guard, with its own card styles.
    The input box, the spinner, the 800 ms delay and the rendered card are
    left out; what the page would show is returned as a value. */
module TrustLite {
  import opened Options
  import opened Text
  import opened Seqs
  import opened Records
  import TrustApp

  /** One entry of the `DATA` table; every field is present. */
  datatype Entry = Entry(
    phone: string, account: string, bank: string, name: string,
    score: int, level: string, note: string)

  const Admin := Entry("0868748858", "0868748858", "MB Bank", "Nguyễn Công Vinh",
    100, "safe", "Admin Web nhận giao dịch trung gian")
  const Seller := Entry("0325822569", "0325822569", "MB Bank", "Nguyễn Vinh Quang",
    100, "safe", "Bán iphone Uy Tín")
  const Tester := Entry("2000", "66668888", "Techcombank", "Test",
    20, "danger", "Nhiều báo cáo rủi ro")

  /** `DATA`, in order. */
  const Data: seq<Entry> := [Admin, Seller, Tester]

  // ---------------------------------------------------------------------
  // Input handling
  // ---------------------------------------------------------------------

  /** The query `TrustApp(input)` works with: the argument when it is
      truthy, used as given; otherwise the trimmed value of the input box
      when the page has one; otherwise the (falsy) argument itself. */
  function EffectiveInput(input: Option<string>, field: Option<string>): (q: Option<string>)
    ensures Truthy(input) ==> q == input
    ensures !Truthy(input) && field.Some? ==> q == Some(Trim(field.value))
    ensures !Truthy(input) && field.None? ==> q == input
    ensures Truthy(q) <==> Truthy(input) || (field.Some? && !IsBlank(field.value))
  {
    if !Truthy(input) && field.Some? then Some(Trim(field.value)) else input
  }

  /** A query taken from the input box has no white space at either end;
      one passed as the argument keeps whatever it has. */
  lemma BoxInputIsTrimmed(field: string)
    ensures var q := EffectiveInput(None, Some(field));
      q.Some? && Trim(q.value) == q.value
  {
    TrimIdempotent(field);
  }

  // ---------------------------------------------------------------------
  // The lookup
  // ---------------------------------------------------------------------

  /** `item.phone === input || item.account === input`. */
  predicate Matches(e: Entry, q: string) {
    e.phone == q || e.account == q
  }

  function MatchesQuery(q: string): Entry -> bool {
    (e: Entry) => Matches(e, q)
  }

  /** `entries.find(...)`: the first entry whose phone or account equals the
      query exactly, or nothing. */
  function Lookup(entries: seq<Entry>, q: string): (r: Option<Entry>)
    ensures r.None? <==> forall e :: e in entries ==> e.phone != q && e.account != q
    ensures r.Some? ==> r.value in entries && (r.value.phone == q || r.value.account == q)
    ensures r.Some? ==> exists i :: IsFirstMatch(entries, MatchesQuery(q), i) && entries[i] == r.value
  {
    Find(entries, MatchesQuery(q))
  }

  /** The entry at position `i` is found when it is the first one that
      matches. */
  lemma LookupFindsFirst(entries: seq<Entry>, q: string, i: int)
    requires IsFirstMatch(entries, MatchesQuery(q), i)
    ensures Lookup(entries, q) == Some(entries[i])
  {
    var r := Lookup(entries, q);
    var k :| IsFirstMatch(entries, MatchesQuery(q), k) && entries[k] == r.value;
    FirstMatchUnique(entries, MatchesQuery(q), i, k);
  }

  // ---------------------------------------------------------------------
  // Card styles
  // ---------------------------------------------------------------------

  const LiteSafe := LevelConfig("✅ Uy Tín Cao", "✅", "#34C759")
  const LiteWarn := LevelConfig("⚠️ Cần Thận Trọng", "⚠️", "#FF9500")
  const LiteDanger := LevelConfig("🚨 Rủi Ro Cao", "🚨", "#FF3B30")

  /** The `levelText` table. */
  const LiteConfigs: map<string, LevelConfig> :=
    map["safe" := LiteSafe, "warn" := LiteWarn, "danger" := LiteDanger]

  /** `levelText[data.level] || levelText.safe`. */
  function LiteConfigFor(level: string): (c: LevelConfig)
    ensures c in LiteConfigs.Values
    ensures level in LiteConfigs ==> c == LiteConfigs[level]
    ensures level !in LiteConfigs ==> c == LiteSafe
  {
    if level in LiteConfigs then LiteConfigs[level] else LiteConfigs["safe"]
  }

  /** An unknown level looks safe here but neutral in the main app, and the
      two pages title the danger level differently. */
  lemma FallbacksDiffer(level: string)
    requires level !in LiteConfigs && level !in TrustApp.LevelConfigs
    ensures LiteConfigFor(level) == LiteSafe
    ensures TrustApp.GetLevelConfig(level) == TrustApp.NeutralConfig
    ensures LiteConfigFor(level) != TrustApp.GetLevelConfig(level)
    ensures LiteConfigFor("danger").title != TrustApp.GetLevelConfig("danger").title
  {
    assert LiteSafe.color != TrustApp.NeutralConfig.color;
    assert LiteDanger.title[1..] != TrustApp.DangerConfig.title[1..];
  }

  // ---------------------------------------------------------------------
  // TrustApp(input)
  // ---------------------------------------------------------------------

  /** What a call shows: the "enter a phone or account" alert, the
      not-found card for the query, or the entry with its card style. */
  datatype Outcome =
    | Rejected
    | NotFound(query: string)
    | Found(entry: Entry, config: LevelConfig)

  /** `TrustApp(input)` over `DATA`, with `field` the input box's value when
      the page has the box. */
  function Check(input: Option<string>, field: Option<string>): (o: Outcome)
    ensures o.Rejected? <==> !Truthy(EffectiveInput(input, field))
    ensures o.NotFound? ==> Some(o.query) == EffectiveInput(input, field)
                            && Lookup(Data, o.query).None?
    ensures o.Found? ==> && Truthy(EffectiveInput(input, field))
                         && Lookup(Data, EffectiveInput(input, field).value) == Some(o.entry)
                         && o.config == LiteConfigFor(o.entry.level)
  {
    var q := EffectiveInput(input, field);
    if !Truthy(q) then Rejected
    else
      match Lookup(Data, q.value)
      case None => NotFound(q.value)
      case Some(e) => Found(e, LiteConfigFor(e.level))
  }

  // ---------------------------------------------------------------------
  // The table, looked up
  // ---------------------------------------------------------------------

  /** The admin's phone finds the admin, rated safe. */
  lemma LookupAdminPhone()
    ensures Lookup(Data, "0868748858") == Some(Admin)
    ensures Admin.name == "Nguyễn Công Vinh" && Admin.score == 100 && Admin.level == "safe"
  {
    LookupFindsFirst(Data, "0868748858", 0);
  }

  /** The test entry is found by its account as well as its phone. */
  lemma LookupTesterAccount()
    ensures Lookup(Data, "66668888") == Some(Tester)
    ensures Tester.level == "danger" && Tester.phone != "66668888"
  {
    assert IsFirstMatch(Data, MatchesQuery("66668888"), 2);
    LookupFindsFirst(Data, "66668888", 2);
  }

  /** Part of a phone finds nothing: "200" is only a prefix of "2000". */
  lemma NoSubstringMatch()
    ensures Lookup(Data, "200").None?
    ensures Tester.phone[..3] == "200"
  {
  }

  /** An argument is used as given: " 2000" finds nothing. */
  lemma ArgumentNotTrimmed()
    ensures Check(Some(" 2000"), None) == NotFound(" 2000")
  {
  }

  lemma TrimLeadingSpace(s: string)
    requires s == " 2000"
    ensures Trim(s) == "2000"
  {
    assert LeadingSpaces(s) == 1 by {
      assert !IsJsSpace(s[1..][0]);
    }
    var r := Trim(s);
    assert !IsJsSpace(s[4]);
    assert |r| == 4;
    assert r == s[1..5];
  }

  /** The same text typed into the box is trimmed and finds the test entry. */
  lemma BoxInputTrimmed()
    ensures Check(None, Some(" 2000")) == Found(Tester, LiteDanger)
  {
    TrimLeadingSpace(" 2000");
    LookupTesterPhone();
  }

  /** The test entry's phone finds it. */
  lemma LookupTesterPhone()
    ensures Lookup(Data, "2000") == Some(Tester)
  {
    assert IsFirstMatch(Data, MatchesQuery("2000"), 2);
    LookupFindsFirst(Data, "2000", 2);
  }

  /** A blank box and no argument raise the alert, whatever the box holds. */
  lemma BlankBoxRejected(field: string)
    requires IsBlank(field)
    ensures Check(None, Some(field)) == Rejected
    ensures Check(Some(""), Some(field)) == Rejected
  {
  }
}

=== FILE: trust_app.dfy ===
/** The enhanced page controller of trust-app.js: the single-result
    resolver `searchInDatabase`, the blank-query guard of `performCheck`,
    the level and score defaults of `displayResult`, the phone formatter
    of `createResultHTML`, the card configurations of `getLevelConfig`,
    and the choice between the loaded database and the built-in fallback. */
module TrustApp {
  import opened Options
  import opened Text
  import opened Seqs
  import opened Records
  import TrustDatabase

  /** `this.database`: an object whose `records` may be missing. */
  datatype Database = Database(records: Option<seq<TrustRecord>>)

  // ---------------------------------------------------------------------
  // Database selection
  // ---------------------------------------------------------------------

  /** The two records `getFallbackData` supplies. */
  const FallbackRecords: seq<TrustRecord> := [
    Blank().(
      id := Some("TEST_001"), phone := Some("0868748858"), name := Some("Nguyễn Công Vinh"),
      score := Some(95), level := Some("safe"), note := Some("Admin Web nhận giao dịch trung gian"),
      bank := Some("MB Bank"), location := Some("Hải Phòng"), account := Some("0868748858"),
      verified := Some(true), lastUpdated := Some("2024-03-15")),
    Blank().(
      id := Some("TEST_002"), phone := Some("0325822569"), name := Some("Nguyễn Vinh Quang"),
      score := Some(90), level := Some("safe"), note := Some("Bán iPhone Uy Tín • Chuyên Apple chính hãng"),
      bank := Some("MB Bank"), location := Some("Hải Phòng"), account := Some("0325822569"),
      verified := Some(true), lastUpdated := Some("2024-03-10"))
  ]

  /** The constructor and `init`: use the global trust database when it is
      loaded, else the fallback data. Either way the records are present. */
  function InitDatabase(global: Option<Store>): (db: Database)
    ensures db.records.Some?
    ensures global.Some? ==> db.records.value == global.value.records
    ensures global.None? ==> db.records.value == FallbackRecords
  {
    match global
    case Some(s) => Database(Some(s.records))
    case None => Database(Some(FallbackRecords))
  }

  // ---------------------------------------------------------------------
  // The resolver
  // ---------------------------------------------------------------------

  /** The per-record test of `searchInDatabase`, in the code's order: the
      exact phone, the phone, any `phones` element, the account (all as
      stored) and the lower-cased name containing the term. */
  predicate ResolverMatch(r: TrustRecord, t: string) {
    || r.phone == Some(t)
    || TrustDatabase.FieldIncludes(r.phone, t)
    || TrustDatabase.SomeIncludes(r.phones, t)
    || TrustDatabase.FieldIncludes(r.account, t)
    || TrustDatabase.FieldIncludesLower(r.name, t)
  }

  function MatchesTerm(t: string): TrustRecord -> bool {
    (r: TrustRecord) => ResolverMatch(r, t)
  }

  /** `searchInDatabase`: nothing when the database or its records are
      missing; otherwise the first record in storage order that matches the
      lower-cased, trimmed query, or nothing if none does. */
  function SearchInDatabase(db: Option<Database>, query: string): (r: Option<TrustRecord>)
    ensures db.None? || db.value.records.None? ==> r.None?
    ensures db.Some? && db.value.records.Some? ==>
      var recs := db.value.records.value;
      var t := TrustDatabase.SearchTerm(query);
      && (r.None? <==> forall x :: x in recs ==> !ResolverMatch(x, t))
      && (r.Some? ==> exists i :: IsFirstMatch(recs, MatchesTerm(t), i) && recs[i] == r.value)
  {
    if db.None? || db.value.records.None? then None
    else Find(db.value.records.value, MatchesTerm(TrustDatabase.SearchTerm(query)))
  }

  /** For a non-empty term the exact-phone test adds nothing: an exact phone
      is also a partial phone match. */
  lemma ExactPhoneSubsumed(r: TrustRecord, t: string)
    requires t != ""
    ensures r.phone == Some(t) ==> TrustDatabase.FieldIncludes(r.phone, t)
  {
    IncludesSelf(t);
  }

  /** The resolver never looks at `accounts` or `aliases`. */
  lemma ResolverIgnoresAccountsAndAliases(r: TrustRecord, t: string, accounts: seq<string>, aliases: seq<string>)
    ensures ResolverMatch(r.(accounts := accounts, aliases := aliases), t) == ResolverMatch(r, t)
  {
  }

  /** First match wins: if the record at position `i` matches, the resolver
      returns that record or one stored before it, whatever later records
      (exact phone matches included) hold. */
  lemma FirstMatchWins(recs: seq<TrustRecord>, query: string, i: int)
    requires 0 <= i < |recs| && ResolverMatch(recs[i], TrustDatabase.SearchTerm(query))
    ensures var r := SearchInDatabase(Some(Database(Some(recs))), query);
      r.Some? && exists k :: 0 <= k <= i && recs[k] == r.value
  {
    var t := TrustDatabase.SearchTerm(query);
    var r := SearchInDatabase(Some(Database(Some(recs))), query);
    assert recs[i] in recs;
    var k :| IsFirstMatch(recs, MatchesTerm(t), k) && recs[k] == r.value;
  }

  /** The resolver returns the record at position `i` when it is the first
      that matches the search term. */
  lemma ResolvesAt(recs: seq<TrustRecord>, query: string, i: int)
    requires 0 <= i < |recs|
    requires forall j :: 0 <= j < i ==> !ResolverMatch(recs[j], TrustDatabase.SearchTerm(query))
    requires ResolverMatch(recs[i], TrustDatabase.SearchTerm(query))
    ensures SearchInDatabase(Some(Database(Some(recs))), query) == Some(recs[i])
  {
    var t := TrustDatabase.SearchTerm(query);
    assert IsFirstMatch(recs, MatchesTerm(t), i);
    var k :| IsFirstMatch(recs, MatchesTerm(t), k) && recs[k] == SearchInDatabase(Some(Database(Some(recs))), query).value;
    FirstMatchUnique(recs, MatchesTerm(t), i, k);
  }

  /** Whatever the resolver returns for a query with a non-empty search term
      is among the records `search` returns for the same query. */
  lemma ResolvedIsSearched(s: Store, query: string)
    requires TrustDatabase.SearchTerm(query) != ""
    ensures var r := SearchInDatabase(Some(Database(Some(s.records))), query);
      r.Some? ==> r.value in TrustDatabase.Search(s, query)
  {
    var t := TrustDatabase.SearchTerm(query);
    var r := SearchInDatabase(Some(Database(Some(s.records))), query);
    if r.Some? {
      var k :| IsFirstMatch(s.records, MatchesTerm(t), k) && s.records[k] == r.value;
      assert ResolverMatch(r.value, t);
      ExactPhoneSubsumed(r.value, t);
      assert TrustDatabase.SearchMatch(r.value, t);
    }
  }

  /** With an empty term the exact-phone test does matter: a record whose
      phone is "" matches the resolver but not `search`. */
  lemma EmptyTermExactPhone()
    ensures var r := Blank().(phone := Some(""));
      ResolverMatch(r, "") && !TrustDatabase.SearchMatch(r, "")
  {
  }

  // ---------------------------------------------------------------------
  // performCheck
  // ---------------------------------------------------------------------

  /** What a check shows: a prompt to type something, "not found" for the
      query, or the found record with its card type, score and card style. */
  datatype CheckOutcome =
    | EmptyQuery
    | NotFound(query: string)
    | Shown(record: TrustRecord, cardType: string, score: int, config: LevelConfig)

  /** `performCheck`: trim the input; a blank query is rejected without a
      lookup; otherwise resolve it and show the result. */
  function PerformCheck(db: Option<Database>, inputValue: string): (r: CheckOutcome)
    ensures r.EmptyQuery? <==> IsBlank(inputValue)
    ensures r.NotFound? ==> r.query == Trim(inputValue) && SearchInDatabase(db, r.query).None?
    ensures r.Shown? ==> && SearchInDatabase(db, Trim(inputValue)) == Some(r.record)
                         && r.cardType == CardType(r.record)
                         && r.score == DisplayScore(r.record)
                         && r.config == GetLevelConfig(r.cardType)
  {
    var query := Trim(inputValue);
    if query == "" then EmptyQuery
    else
      match SearchInDatabase(db, query)
      case None => NotFound(query)
      case Some(rec) => Shown(rec, CardType(rec), DisplayScore(rec), GetLevelConfig(CardType(rec)))
  }

  /** The term `performCheck` hands to the resolver is never empty, so the
      resolver's exact-phone test is redundant there. */
  lemma CheckedTermNonEmpty(inputValue: string)
    requires !IsBlank(inputValue)
    ensures TrustDatabase.SearchTerm(Trim(inputValue)) != ""
  {
    var q := Trim(inputValue);
    assert !IsJsSpace(Lower(q)[0]) by {
      LowerCharKeepsSpace(q[0]);
    }
  }

  /** A record shown by a check is among the records `search` returns for
      the trimmed input. */
  lemma ShownIsSearched(s: Store, inputValue: string)
    ensures var r := PerformCheck(Some(Database(Some(s.records))), inputValue);
      r.Shown? ==> r.record in TrustDatabase.Search(s, Trim(inputValue))
  {
    if !IsBlank(inputValue) {
      CheckedTermNonEmpty(inputValue);
      ResolvedIsSearched(s, Trim(inputValue));
    }
  }

  // ---------------------------------------------------------------------
  // displayResult defaults and card styles
  // ---------------------------------------------------------------------

  /** `record.level || 'neutral'`. */
  function CardType(r: TrustRecord): (c: string)
    ensures c != ""
    ensures Truthy(r.level) ==> c == r.level.value
    ensures !Truthy(r.level) ==> c == "neutral"
  {
    if Truthy(r.level) then r.level.value else "neutral"
  }

  /** `record.score || 50`: a missing score and a score of 0 both show as 50. */
  function DisplayScore(r: TrustRecord): (s: int)
    ensures s != 0
    ensures TruthyNumber(r.score) ==> s == r.score.value
    ensures !TruthyNumber(r.score) ==> s == 50
  {
    if TruthyNumber(r.score) then r.score.value else 50
  }

  const SafeConfig := LevelConfig("✅ Uy Tín Cao", "✅", "#34C759")
  const WarnConfig := LevelConfig("⚠️ Cần Thận Trọng", "⚠️", "#FF9500")
  const DangerConfig := LevelConfig("🚨 Nguy Hiểm", "🚨", "#FF3B30")
  const NeutralConfig := LevelConfig("ℹ️ Không Tìm Thấy", "ℹ️", "#8E8E93")

  /** The `configs` table of `getLevelConfig`. */
  const LevelConfigs: map<string, LevelConfig> :=
    map["safe" := SafeConfig, "warn" := WarnConfig, "danger" := DangerConfig, "neutral" := NeutralConfig]

  /** `getLevelConfig`: the level's own card style, the neutral one for any
      other level. */
  function GetLevelConfig(level: string): (c: LevelConfig)
    ensures c in LevelConfigs.Values
    ensures level in LevelConfigs ==> c == LevelConfigs[level]
    ensures level !in LevelConfigs ==> c == NeutralConfig
  {
    if level in LevelConfigs then LevelConfigs[level] else LevelConfigs["neutral"]
  }

  /** The four levels have four different card styles, so a level is shown
      with the neutral style exactly when it is not safe, warn or danger. */
  lemma NeutralConfigIff(level: string)
    ensures GetLevelConfig(level) == NeutralConfig <==> level != "safe" && level != "warn" && level != "danger"
  {
    assert SafeConfig.color != NeutralConfig.color;
    assert WarnConfig.color != NeutralConfig.color;
    assert DangerConfig.color != NeutralConfig.color;
  }

  /** A record stored by `addRecord` already carries the defaults the result
      card would apply: it shows with its stored level and score. */
  lemma AddedRecordShowsAsStored(s: Store, rec: TrustRecord, millis: nat, suffix: string, nowIso: string)
    ensures var stored := TrustDatabase.AddRecord(s, rec, millis, suffix, nowIso).store.records[|s.records|];
      && Some(CardType(stored)) == stored.level
      && Some(DisplayScore(stored)) == stored.score
  {
  }

  // ---------------------------------------------------------------------
  // formatPhonePretty
  // ---------------------------------------------------------------------

  /** Pretty formatting only moves spaces around: it shows the same digits,
      in the same order, as the full phone the card displays. */
  lemma PrettyKeepsDigits(phone: Option<string>)
    ensures StripNonDigits(FormatPhonePretty(phone)) == StripNonDigits(DisplayPhone(phone))
  {
  }

  /** Stripping the non-digits across a single-space join removes the join. */
  lemma SpaceJoinStripNonDigits(x: string, y: string)
    ensures StripNonDigits(x + " " + y) == StripNonDigits(x) + StripNonDigits(y)
  {
    StripNonDigitsAppend(x + " ", y);
    StripNonDigitsAppend(x, " ");
    assert StripNonDigits(" ") == "" by {
      assert " "[1..] == [];
    }
  }

  /** `s` is `d` split into groups of 4, 3 and the rest, joined by single spaces. */
  predicate GroupedDigits(s: string, d: string) {
    && |d| >= 7
    && |s| == |d| + 2
    && s[4] == ' ' && s[8] == ' '
    && (forall k :: 0 <= k < |s| && k != 4 && k != 8 ==> IsDigit(s[k]))
    && StripNonDigits(s) == d
  }

  /** `displayPhone`, the phone the card shows: a dash for a missing
      phone, otherwise the phone in full. */
  function DisplayPhone(phone: Option<string>): (r: string)
    ensures Truthy(phone) ==> r == phone.value
    ensures !Truthy(phone) ==> r == "—"
  {
    if !Truthy(phone) then "—" else phone.value
  }

  /** `formatPhonePretty`: a dash for a missing phone; the digits grouped
      4-3-3 when there are ten and 4-3-4 when there are eleven; otherwise
      the phone exactly as given. */
  function FormatPhonePretty(phone: Option<string>): (r: string)
    ensures !Truthy(phone) ==> r == "—"
    ensures Truthy(phone) ==>
      var d := StripNonDigits(phone.value);
      && (|d| == 10 ==> |r| == 12 && GroupedDigits(r, d))
      && (|d| == 11 ==> |r| == 13 && GroupedDigits(r, d))
      && (|d| != 10 && |d| != 11 ==> r == phone.value)
  {
    if !Truthy(phone) then "—"
    else
      var d := StripNonDigits(phone.value);
      if |d| == 10 || |d| == 11 then
        GroupDigits(d)
      else phone.value
  }

  /** `d[..4] + " " + d[4..7] + " " + d[7..]` for a digit string. */
  function GroupDigits(d: string): (r: string)
    requires |d| >= 7 && AllDigits(d)
    ensures GroupedDigits(r, d)
  {
    var r := d[..4] + " " + d[4..7] + " " + d[7..];
    UngroupDigits(d);
    r
  }

  /** Removing the two separators of a grouped digit string gives the digits back. */
  lemma UngroupDigits(d: string)
    requires |d| >= 7 && AllDigits(d)
    ensures StripNonDigits(d[..4] + " " + d[4..7] + " " + d[7..]) == d
  {
    var a, b, c := d[..4], d[4..7], d[7..];
    assert AllDigits(a) && AllDigits(b) && AllDigits(c);
    SpaceJoinStripNonDigits(a, b);
    SpaceJoinStripNonDigits(a + " " + b, c);
    assert a + b + c == d;
  }

  // ---------------------------------------------------------------------
  // The seed, looked up
  // ---------------------------------------------------------------------

  /** A digit string is its own search term. */
  lemma DigitsAreTheirOwnTerm(q: string)
    requires AllDigits(q)
    ensures TrustDatabase.SearchTerm(q) == q
  {
    assert Lower(q) == q;
    TrimNoSpaceEnds(q);
  }

  /** A record matches no term that occurs in none of its resolver fields
      and differs from its phone. */
  lemma NoMatchWhenAbsent(r: TrustRecord, t: string)
    requires r.phone != Some(t)
    requires r.phone.Some? ==> !Includes(r.phone.value, t)
    requires forall f :: f in r.phones ==> !Includes(f, t)
    requires r.account.Some? ==> !Includes(r.account.value, t)
    requires r.name.Some? ==> !Includes(Lower(r.name.value), t)
    ensures !ResolverMatch(r, t)
  {
  }

  /** A string without decimal digits. */
  predicate NoDigit(s: string) {
    forall i :: 0 <= i < |s| ==> !IsDigit(s[i])
  }

  /** A name without digits does not contain a term that starts with one,
      even lower-cased. */
  lemma NameLacksDigit(name: string, t: string)
    requires NoDigit(name) && |t| > 0 && IsDigit(t[0])
    ensures !Includes(Lower(name), t)
  {
    LowerKeepsDigit(name, t[0]);
    NotIncludesMissingChar(Lower(name), t);
  }

  /** The resolver over the database the page starts with: the global trust
      database, loaded with its seed at clock reading `nowIso`. */
  function SeedLookup(nowIso: string, query: string): Option<TrustRecord> {
    SearchInDatabase(Some(InitDatabase(Some(TrustDatabase.Loaded(nowIso)))), query)
  }

  /** Once the trust database is loaded, the app searches exactly its seed,
      in storage order, whatever the load time. */
  lemma LoadedDatabaseIsSeed(nowIso: string)
    ensures InitDatabase(Some(TrustDatabase.Loaded(nowIso))) == Database(Some(TrustDatabase.SeedRecords))
  {
  }

  /** The resolver returns the third record when the first two miss and
      it matches. */
  lemma ResolvesThird(recs: seq<TrustRecord>, query: string)
    requires |recs| >= 3
    requires !ResolverMatch(recs[0], TrustDatabase.SearchTerm(query))
    requires !ResolverMatch(recs[1], TrustDatabase.SearchTerm(query))
    requires ResolverMatch(recs[2], TrustDatabase.SearchTerm(query))
    ensures SearchInDatabase(Some(Database(Some(recs))), query) == Some(recs[2])
  {
    ResolvesAt(recs, query, 2);
  }

  // Each fact about a literal string below has a lemma of its own, which
  // keeps the verifier's view of the seed small.

  /** The seed queries below are their own search terms. */
  lemma PhoneQueryTerm(q: string)
    requires q == "0868748858"
    ensures TrustDatabase.SearchTerm(q) == q
  {
    DigitsAreTheirOwnTerm(q);
  }

  lemma RiskQueryTerm(q: string)
    requires q == "2000"
    ensures TrustDatabase.SearchTerm(q) == q
  {
    DigitsAreTheirOwnTerm(q);
  }

  lemma Uytin001MatchesOwnPhone()
    ensures ResolverMatch(TrustDatabase.Uytin001, "0868748858")
  {
  }

  /** Looking up the first seed record's phone finds that record, rated safe. */
  lemma SeedLookupPhone(nowIso: string)
    ensures var r := SeedLookup(nowIso, "0868748858");
      && r == Some(TrustDatabase.Uytin001)
      && r.value.id == Some("UYTIN_001") && r.value.level == Some("safe")
  {
    LoadedDatabaseIsSeed(nowIso);
    PhoneQueryTerm("0868748858");
    Uytin001MatchesOwnPhone();
    ResolvesAt(TrustDatabase.SeedRecords, "0868748858", 0);
  }

  lemma NoDigitInNames(name: string)
    requires || name == "Nguyễn Công Vinh" || name == "Nguyễn Vinh Quang"
             || name == "NamGay" || name == "Nguyễn Phú Trọng"
    ensures NoDigit(name)
  {
  }

  /** "0868748858" has no '2', so "2000" is not part of it. */
  lemma LacksTwo(s: string)
    requires s == "0868748858"
    ensures !Includes(s, "2000")
  {
    NotIncludesMissingChar(s, "2000");
  }

  /** "0987654321" has one zero; "2000" has three. */
  lemma FewZerosA(s: string)
    requires s == "0987654321"
    ensures !Includes(s, "2000")
  {
    NotIncludesByCount(s, "2000", '0');
  }

  /** "0325822569" has one zero too. Stated apart from `FewZerosA`: one
      lemma for both literals is too much for the solver. */
  lemma FewZerosB(s: string)
    requires s == "0325822569"
    ensures !Includes(s, "2000")
  {
    NotIncludesByCount(s, "2000", '0');
  }

  /** "2000" occurs in no resolver field of the first seed record. */
  lemma Uytin001Misses2000()
    ensures !ResolverMatch(TrustDatabase.Uytin001, "2000")
  {
    var r := TrustDatabase.Uytin001;
    LacksTwo(r.phone.value);
    forall f | f in r.phones ensures !Includes(f, "2000") {
      if f == "0868748858" { LacksTwo(f); } else { FewZerosA(f); }
    }
    NoDigitInNames(r.name.value);
    NameLacksDigit(r.name.value, "2000");
    NoMatchWhenAbsent(r, "2000");
  }

  /** "2000" occurs in no resolver field of the second seed record. */
  lemma Uytin002Misses2000()
    ensures !ResolverMatch(TrustDatabase.Uytin002, "2000")
  {
    var r := TrustDatabase.Uytin002;
    FewZerosB(r.phone.value);
    assert forall f :: f in r.phones ==> f == r.phone.value;
    NoDigitInNames(r.name.value);
    NameLacksDigit(r.name.value, "2000");
    NoMatchWhenAbsent(r, "2000");
  }

  /** "2000" is only part of the third seed record's phone, the flagged
      scam record. */
  lemma SeedLookupRisk(nowIso: string)
    ensures var r := SeedLookup(nowIso, "2000");
      && r == Some(TrustDatabase.Risk001)
      && r.value.id == Some("RISK_001") && r.value.level == Some("danger")
      && r.value.warning == Some(true)
  {
    LoadedDatabaseIsSeed(nowIso);
    RiskQueryTerm("2000");
    Uytin001Misses2000();
    Uytin002Misses2000();
    ResolvesThird(TrustDatabase.SeedRecords, "2000");
  }

  /** A term occurs in a string no longer than itself only if it is that string. */
  lemma NotIncludesUnlessEqual(s: string, t: string)
    requires |s| <= |t| && s != t
    ensures !Includes(s, t)
  {
  }

  /** A record whose resolver fields are all different strings no longer
      than `t`, and whose name has no digit while `t` starts with one,
      does not match `t`. */
  lemma NoMatchShortFields(r: TrustRecord, t: string)
    requires |t| > 0 && IsDigit(t[0])
    requires r.phone.Some? && |r.phone.value| <= |t| && r.phone.value != t
    requires forall f :: f in r.phones ==> |f| <= |t| && f != t
    requires r.account.Some? && |r.account.value| <= |t| && r.account.value != t
    requires r.name.Some? && NoDigit(r.name.value)
    ensures !ResolverMatch(r, t)
  {
    NotIncludesUnlessEqual(r.phone.value, t);
    forall f | f in r.phones ensures !Includes(f, t) {
      NotIncludesUnlessEqual(f, t);
    }
    NotIncludesUnlessEqual(r.account.value, t);
    NameLacksDigit(r.name.value, t);
    NoMatchWhenAbsent(r, t);
  }

  /** Ten zeros match no seed record: every resolver field is a different
      string of at most ten digits, and no name has a digit. */
  lemma SeedMissesZeros(r: TrustRecord)
    requires r in TrustDatabase.SeedRecords
    ensures !ResolverMatch(r, "0000000000")
  {
    NoDigitInNames(r.name.value);
    NoMatchShortFields(r, "0000000000");
  }

  /** Ten zeros match no seed record. */
  lemma SeedLookupMissing(nowIso: string)
    ensures SeedLookup(nowIso, "0000000000").None?
  {
    LoadedDatabaseIsSeed(nowIso);
    DigitsAreTheirOwnTerm("0000000000");
    forall r | r in TrustDatabase.SeedRecords ensures !ResolverMatch(r, "0000000000") {
      SeedMissesZeros(r);
    }
  }
}
